=== FILE: README.md ===
# AutoTradeFromTwitter_Simple — a Dafny model of the tweet-triggered trading controller

The bot watches one Twitter account. When that account tweets about a coin, it
buys the coin on Binance.us for a fixed USD amount. After a fixed number of
hours it sells what it bought. This project models the decision logic of that
controller:

- **the tweet filter**: which statuses may trigger a buy (`on_status`, `from_creator`);
- **the funds checks** that gate each order: the buy check with its 0.1% fee
  reserve, which BNB may cover, and the three ordered sell checks
  (`StreamListener.create_order`, `BinanceTrading.create_buy_order` / `create_sell_order`);
- **the balance snapshot** built by `BinanceTrading.check_balances`;
- **the two-phase state machine**. `TradeDataForKilledStream` (`side`, `buy_time`,
  `text`) lives for the whole process. The listener's `executed_qty` and
  `insufficient_funds` live on a listener that is rebuilt on every reconnect.

Modules, one per source component:

| file | module | models |
|---|---|---|
| `wrappers.dfy` | `Wrappers` | `Option`, used for Python's `None` |
| `text.dfy` | `Text` | ASCII `str.lower()`, the slice `t[:-3]`, the substring test `a in b` |
| `exchange.dfy` | `Exchange` | account rows, snapshot entries, order replies, `check_balances` |
| `trade.dfy` | `Trade` | the fee, the buy check, both sell checks, `create_buy_order`, `create_sell_order` |
| `listener.dfy` | `Listener` | `TradeDataForKilledStream`, the tweet filter, `create_order`, `on_status` |
| `supervisor.dfy` | `Supervisor` | the `while True` reconnect loop, which reuses one trade-data object |

Modelling choices:

- Money is an exact `real`. An integer clock in milliseconds replaces `datetime`.
  An order's `transactTime` is already in milliseconds, so it is used directly;
  the source divides it by 1000 only to build a Python datetime.
- The holding period has passed when `(now - buy_time) > sell_time * 3600000`.
  The comparison is strict: a reading exactly `sell_time` hours after the buy
  does not fire.
- The exchange, the clock and the stream are inputs. A `World` value carries
  everything one `on_status` call reads:
  - the two balance reads of the buy: the listener's, and the one the trader
    repeats inside `create_buy_order`;
  - the exchange's reply to the buy;
  - the clock reading used when a buy returns no order;
  - the sequence of clock readings taken by the polling loop;
  - the two balance reads and the exchange reply of the sell.
- A balance read is either a snapshot or `None`. `None` stands for an
  exchange exception inside `check_balances` (the second `get_account`, or
  `get_symbol_ticker` for an asset with no USD pair), which nothing catches.
  Such a call is reported as `aborted`: it leaves `on_status`, and the stream
  then ends the connection. On the buy path nothing has changed yet. On the
  sell path the phase has already flipped to buy, so no sell is attempted and
  the position is no longer tracked (`FailedSellReadLeavesBuyPhase`).
- The polling loop is modelled over a finite sequence of clock readings. A call
  whose readings all fall inside the holding period is reported as still
  `waiting`, and its trade data stays in the sell phase.
- The buy check is identical in both files, so one function, `BuyVerdict`,
  serves both. The two sell checks differ in their fee, so they are separate
  functions. The listener's fee is 0.1% of the configured buy notional. The
  trader's fee is 0.1% of the value being sold. `SellChecksDisagree` gives a
  snapshot on which the two checks disagree. `SellFeeMismatchHidesRefusal`
  shows the result: the listener clears `insufficient_funds`, yet no order is
  placed.
- Behaviours of the code worth noting:
  - The configured username is compared without being lower-cased. A username
    containing a capital letter therefore never matches
    (`CapitalisedUsernameNeverMatches`).
  - The buy check rejects when USD is below the notional, or when both the USD
    surplus and the BNB value are below the fee. `CanAffordBuy` states the
    policy this check implements.
  - In the sell phase `on_status` skips the tweet filter and goes straight
    into the polling loop. The source never reaches that branch, because
    `on_status` leaves the polling loop only after setting the phase back to
    buy. Only the model's `waiting` state, a call whose clock readings ran
    out, delivers a status in the sell phase (`TimedExit`).
  - A buy that passes the listener's check always moves the phase to sell,
    even when the trader's re-check or the exchange returned no order. In that
    case the buy time is the current clock reading and `executed_qty` is
    unchanged. On a listener that filled an earlier buy in the same
    connection, the timed sell that follows offers that earlier quantity
    again (`BuyThenTimedSell`, `ListenerKeptWithinConnection`).
- The reconnect loop reuses the trade data but builds a new listener, so
  `executed_qty` restarts at 0. In the source the phase is never sell when a
  connection ends. The polling loop only reads the clock and sleeps, so a
  dropped connection cannot interrupt it. Every way out of the loop, including
  an exception from the sell, passes the flip back to buy first. An exception
  on the buy path happens before the phase is set to sell. The model can still
  end a connection inside the polling loop, when the clock readings it was
  given run out. `ReconnectedSellIsBelowMinimum` and `ReconnectResumesHolding`
  describe what would follow from that model-only state: the sell would be
  for 0 coins and refused as below the 10 USD minimum. That holds only when
  the coin still has a positive balance. With no coin held, `check_balances`
  leaves the coin out, and the sell's lookup of it raises `KeyError` at
  Stream_Tweets_And_Trade.py:133. The model represents that read as a `None`
  sell read, which aborts the call (`FailedSellReadLeavesBuyPhase`). A buy that
  passes the listener's check but returns no order leaves `executed_qty` as it
  was. On a listener that has not filled a buy, that is 0, and if the coin is
  not held the timed sell fails on its balance read, a raise the source can
  reach.

## Model

| member | source | states |
|---|---|---|
| Text.LowerChar | Stream_Tweets_And_Trade.py:43 | lower-casing one character leaves no upper-case letter and keeps every non-letter |
| Text.Lower | Stream_Tweets_And_Trade.py:53 | `str.lower()` keeps the length, leaves no upper-case letter, and keeps every character that was not upper-case |
| Text.DropLast3 | Stream_Tweets_And_Trade.py:33 | `ticker[:-3]` is the prefix of the ticker three characters shorter, or empty for a ticker shorter than three |
| Text.Contains | Stream_Tweets_And_Trade.py:53 | the `in` test is true exactly when the needle occurs at some offset of the text |
| Exchange.CheckBalances | Trade.py:10-32 | the snapshot holds exactly the assets with some row of positive free balance; each entry has a positive amount and the asset's price per coin (1 for USD); its USD value is price times amount; the amount comes from the last such row |
| Trade.BuyVerdict | Stream_Tweets_And_Trade.py:115-124 | a buy passes exactly when USD covers the notional and the larger of the USD surplus and the BNB value covers the 0.1% fee; otherwise it is refused as short of USD (the same check as Trade.py:36-43) |
| Trade.ExactUsdNeedsBnbForFee | Stream_Tweets_And_Trade.py:116-118 | with exactly the notional in USD, a buy passes exactly when BNB covers the fee |
| Trade.BuyVerdictMonotone | Trade.py:39-43 | more USD or more BNB never turns an accepted buy into a refused one |
| Trade.SellChecks | Stream_Tweets_And_Trade.py:138-158 | the sell checks run in order (coin held, 10 USD minimum, fee) and report the first failure; each reason holds exactly when the earlier checks pass and its own fails |
| Trade.ListenerSellVerdict | Stream_Tweets_And_Trade.py:132-158 | the listener sells `executed_qty`, requires a value of at least 10 USD, and takes the fee as 0.1% of the configured buy notional |
| Trade.TraderSellVerdict | Trade.py:62-83 | the trader requires the same coin holding and 10 USD minimum, but takes the fee as 0.1% of the value sold |
| Trade.SmallSellAlwaysRefused | Stream_Tweets_And_Trade.py:145-150 | a sell worth under 10 USD is refused by both checks, whatever the other balances |
| Trade.ListenerSellImpliesTraderSell | Trade.py:67-69 | when the value sold does not exceed the buy notional, a sell the listener accepts is accepted by the trader on the same snapshot |
| Trade.SellChecksDisagree | Stream_Tweets_And_Trade.py:136-137 | a concrete snapshot that the listener's sell check accepts and the trader's refuses for the fee |
| Trade.CreateBuyOrder | Trade.py:34-58 | an order comes back exactly when the trader's own buy check passes and the exchange does not raise; it is the exchange's order |
| Trade.CreateSellOrder | Trade.py:60-97 | an order comes back exactly when the trader's sell check passes and the exchange does not raise; no order below 10 USD |
| Listener.InitialTradeData | Stream_Tweets_And_Trade.py:14-17 | the trade data starts in the buy phase with no buy time and empty text, a consistent state |
| Listener.SaveBuyOrderData | Stream_Tweets_And_Trade.py:19-22 | saving a buy enters the sell phase with the given buy time and text, and the result has a buy time to time the exit from |
| Listener.TickerStr | Stream_Tweets_And_Trade.py:33 | `ticker_str` is the ticker's first length-minus-3 characters, each lower-cased, so it has no upper-case letter |
| Listener.ShortTickerMatchesAnyText | Stream_Tweets_And_Trade.py:33 | with a ticker of three characters or fewer, `ticker_str` is empty and every text mentions it |
| Listener.NewListener | Stream_Tweets_And_Trade.py:35-39 | a new listener has `executed_qty` 0 and no shortfall recorded |
| Listener.FromCreator | Stream_Tweets_And_Trade.py:95-105 | a status is from the creator exactly when it is not a retweet and none of the three reply fields is set (truthy) |
| Listener.Qualifies | Stream_Tweets_And_Trade.py:42-54 | a status triggers a buy exactly when the phase is buy, the lower-cased screen name equals the username, it is neither retweet nor reply, and the lower-cased text contains `ticker_str` |
| Listener.CapitalisedUsernameNeverMatches | Stream_Tweets_And_Trade.py:43 | a configured username with a capital letter never matches any status |
| Listener.ScreenNameCaseIgnored | Stream_Tweets_And_Trade.py:43 | screen names that differ only in case are treated alike |
| Listener.NothingQualifiesWhileSelling | Stream_Tweets_And_Trade.py:42 | no status triggers a buy in the sell phase |
| Listener.DogeTweetScenario | Stream_Tweets_And_Trade.py:42-54 | tracking "alice" with "DOGEUSD", "Buying $DOGE today" from "Alice" qualifies and the same tweet from "bob" does not |
| Listener.TweetText | Stream_Tweets_And_Trade.py:48-51 | the tweet's text is `extended_tweet['full_text']` when present, the plain text otherwise |
| Listener.RecordCall | Stream_Tweets_And_Trade.py:123-166 | after `create_order` returns normally, `insufficient_funds` is set exactly when a guard refused and cleared when the trader was called; `executed_qty` is untouched |
| Listener.CreateOrder | Stream_Tweets_And_Trade.py:107-167 | a failed balance read raises before anything else; an unknown side is a `ValueError`; otherwise it refuses exactly when the listener's buy or sell check fails; once that check passes, a failed trader read raises, and otherwise the result is exactly what `create_buy_order`, or `create_sell_order` with the listener's `executed_qty`, returns; any order returned is the exchange's; a sell is never refused as short of USD |
| Listener.BuyRecheckAgrees | Stream_Tweets_And_Trade.py:125-128 | on an unchanged snapshot the trader's repeated buy check passes, so the exchange's reply alone decides the order |
| Listener.SellFeeMismatchHidesRefusal | Stream_Tweets_And_Trade.py:159-167 | when the listener's sell check passes and the trader's fails, no order is placed and `insufficient_funds` is cleared |
| Listener.FirstExpiry | Stream_Tweets_And_Trade.py:72-89 | the polling loop stops at the first reading strictly past the holding period; no earlier reading is past it; it never stops when no reading is |
| Listener.SellPhase | Stream_Tweets_And_Trade.py:71-89 | a sell is tried, or the sell's balance read raises, exactly when some reading is past the holding period; the phase then returns to buy whatever the outcome; when both reads succeed and the listener's check passes, the sell is `create_sell_order` of the listener's `executed_qty`; otherwise the call is still waiting in the sell phase |
| Listener.OnStatus | Stream_Tweets_And_Trade.py:41-89 | the trade data stays consistent; the phase is sell exactly when the call is still waiting; a buy is tried only for a qualifying status, and always for one unless a balance read raises; a buy-phase status with no buy changes nothing; an aborted call ends in the buy phase with no sell |
| Listener.RefusedBuyChangesNothing | Stream_Tweets_And_Trade.py:56-59 | a refused buy keeps the phase, buy time, text and `executed_qty`, and sets `insufficient_funds` |
| Listener.FailedBuyReadChangesNothing | Stream_Tweets_And_Trade.py:56-58 | a buy whose balance read raises (the listener's, or the trader's after the listener's check passed) changes neither listener nor trade data, and the call ends |
| Listener.AcceptedBuyStartsHolding | Stream_Tweets_And_Trade.py:60-69 | an accepted buy times the exit from the order's `transactTime`, or from the clock when no order came back; it stores the tweet text, updates `executed_qty` only from an order, and clears `insufficient_funds` |
| Listener.BuyThenTimedSell | Stream_Tweets_And_Trade.py:60-89 | on the one path where the bot sells (a qualifying buy that passes the listener's check, then a reading past the holding period in the same call), the sell's result is `create_sell_order` of the bought order's `executed_qty`, or of the earlier `executed_qty` when no order came back, and the call ends in the buy phase |
| Listener.TimedExit | Stream_Tweets_And_Trade.py:71-89 | for the model-only state of a status arriving in the sell phase, nothing happens while every reading is within the holding period; otherwise the phase returns to buy, and when both balance reads succeed the sell is tried with the listener's `executed_qty` |
| Listener.FailedSellReadLeavesBuyPhase | Stream_Tweets_And_Trade.py:76-77 | when the sell's balance read raises, the call ends in the buy phase with no sell attempted |
| Listener.ReconnectedSellIsBelowMinimum | Stream_Tweets_And_Trade.py:136-150 | in the model-only state of a fresh listener inheriting the sell phase, its timed sell is always refused as below the 10 USD minimum |
| Supervisor.Connection | Stream_Tweets_And_Trade.py:225-226 | a connection keeps the trade data consistent; after at least one status it ends in the sell phase exactly when it ended inside the polling loop; a raising first call ends it at once with the listener and trade data that call left; a first call still polling ends it waiting |
| Supervisor.ListenerKeptWithinConnection | Stream_Tweets_And_Trade.py:218-226 | within one connection, a second status is handled by the listener the first status left, so `executed_qty` and `insufficient_funds` carry over between statuses |
| Supervisor.Supervise | Stream_Tweets_And_Trade.py:197-230 | across any number of reconnects the shared trade data stays consistent |
| Supervisor.SuperviseAppend | Stream_Tweets_And_Trade.py:197-224 | each new connection runs a fresh listener on exactly the trade data the earlier connections left |
| Supervisor.ReconnectResumesHolding | Stream_Tweets_And_Trade.py:218-224 | in the model-only state of a connection ending in the sell phase, the next connection's first status polls from the same buy time, and the sell it tries is refused as below the minimum |

## Left out

- Reading the API key files, building clients (`APIs.py`), and the command line: these are I/O and configuration. The configuration is the `Config` value.
- The tweepy stream, `on_error`, the `except` / `sleep(5)` back-off, and connection failures: these are I/O. A connection is modelled as a finite sequence of statuses.
- Exchange calls (`get_account`, `get_asset_balance`, `get_symbol_ticker`, `create_order`): these are foreign calls. Account rows, a ticker-price function and exchange replies are inputs.
- Exchange.CheckBalances: the amount is taken from the account row. The model assumes that `get_asset_balance` returns the same free balance as `get_account`. It leaves out the error from the first `get_account` call, which is only printed. It describes only a read in which every exchange call succeeds; a raising read is the `None` balance read of `World`.
- Supervisor.Connection: ending a connection inside the polling loop happens only in the model, when the clock readings it was given run out. In the source the stream is synchronous and cannot interrupt `on_status`, so the phase is always buy when a connection ends.
- `datetime.now`, pytz time zones and `time.sleep(1)`: the clock is an input sequence of millisecond readings, and sub-millisecond precision is not kept.
- Floating-point rounding and the parsing of decimal strings: amounts are exact reals.
- `KeyError` when `USD`, `BNB` or the coin is missing from a snapshot: a snapshot that is `Some` must hold these keys (`Readable`, `CanCreate`, `WorldReadable`). A read that would lack one, such as the sell's read when no coin is held, is modelled as a `None` read, which aborts the call like any other raise.
- A status with an `extended_tweet` that lacks `full_text` raises in the source: statuses are assumed well formed.
- `str.lower()` is modelled for ASCII letters only, because Unicode case mapping is out of scope.
- Printed messages and the unused `sell_time` variable built from a sell order are logging only.

=== FILE: exchange.dfy ===
/**
 The exchange side of the bot (Trade.py): account balances, the balance
 snapshot built by `check_balances`, and the order records the exchange
 returns. Amounts and prices are exact reals; the exchange's string-encoded
 decimals and Python floats are not modelled.
 */
module Exchange {

  /** The quote currency; its price per coin is 1 by definition. */
  const Usd: string := "USD"

  /** The discount asset whose USD value may cover the trading fee. */
  const Bnb: string := "BNB"

  /** One row of `get_account()['balances']`. */
  datatype Account = Account(asset: string, free: real)

  /** The three fields `check_balances` stores per asset. */
  datatype Entry = Entry(amount: real, usdInvested: real, pricePerCoin: real)

  /** `check_balances`' result: asset name to its entry. */
  type Snapshot = map<string, Entry>

  /** What `client.create_order` gives back when it does not raise. */
  datatype Order = Order(transactTime: int, executedQty: real)

  /** The outcome of one `client.create_order` call: an order record, or a `BinanceAPIException`. */
  datatype Reply = Placed(order: Order) | ApiError

  /**
   The two keys every guard reads unconditionally; a snapshot missing
   either makes the source raise `KeyError`.
   */
  predicate Readable(snap: Snapshot)
  {
    Usd in snap && Bnb in snap
  }

  /** USD per coin of `asset`: 1 for USD itself, otherwise the `<asset>USD` ticker price. */
  function PricePerCoin(asset: string, tickerPrice: string -> real): real
  {
    if asset == Usd then 1.0 else tickerPrice(asset + Usd)
  }

  /** The entry `check_balances` writes for one account row. */
  function EntryOf(a: Account, tickerPrice: string -> real): Entry
  {
    var p := PricePerCoin(a.asset, tickerPrice);
    Entry(a.free, p * a.free, p)
  }

  /**
   Every entry is priced as `check_balances` prices it: a positive amount,
   the asset's price per coin, and USD value equal to price times amount.
   */
  predicate Priced(snap: Snapshot, tickerPrice: string -> real)
  {
    forall asset :: asset in snap ==>
      && snap[asset].amount > 0.0
      && snap[asset].pricePerCoin == PricePerCoin(asset, tickerPrice)
      && snap[asset].usdInvested == snap[asset].pricePerCoin * snap[asset].amount
  }

  /** Row `j` of `accounts` holds a positive free balance of `asset`. */
  predicate HeldAt(accounts: seq<Account>, j: int, asset: string)
  {
    0 <= j < |accounts| && accounts[j].asset == asset && accounts[j].free > 0.0
  }

  /** Row `j` is the last row before `n` holding a positive free balance of `asset`. */
  predicate LastHeldBefore(accounts: seq<Account>, n: int, j: int, asset: string)
  {
    j < n && HeldAt(accounts, j, asset) && forall k :: j < k < n ==> !HeldAt(accounts, k, asset)
  }

  /**
   `BinanceTrading.check_balances`: walks the account rows in order and, for
   each row with a positive free balance, records amount, price per coin and
   USD value; a later row for the same asset overwrites an earlier one, as
   the Python dict assignment does.
   */
  method CheckBalances(accounts: seq<Account>, tickerPrice: string -> real) returns (snap: Snapshot)
    ensures forall asset :: asset in snap <==> exists j :: HeldAt(accounts, j, asset)
    ensures Priced(snap, tickerPrice)
    ensures Usd in snap ==> snap[Usd].pricePerCoin == 1.0 && snap[Usd].usdInvested == snap[Usd].amount
    ensures forall asset :: asset in snap ==>
              exists j :: LastHeldBefore(accounts, |accounts|, j, asset) && snap[asset].amount == accounts[j].free
  {
    snap := map[];
    var i := 0;
    while i < |accounts|
      invariant 0 <= i <= |accounts|
      invariant forall asset :: asset in snap <==> exists j :: j < i && HeldAt(accounts, j, asset)
      invariant forall asset :: asset in snap ==>
                  exists j :: LastHeldBefore(accounts, i, j, asset) && snap[asset] == EntryOf(accounts[j], tickerPrice)
    {
      var a := accounts[i];
      var prev := snap;
      if a.free > 0.0 {
        snap := snap[a.asset := EntryOf(a, tickerPrice)];
      }
      forall asset | asset in snap
        ensures exists j :: LastHeldBefore(accounts, i + 1, j, asset) && snap[asset] == EntryOf(accounts[j], tickerPrice)
      {
        if HeldAt(accounts, i, asset) {
          assert LastHeldBefore(accounts, i + 1, i, asset);
        } else {
          var j :| LastHeldBefore(accounts, i, j, asset) && prev[asset] == EntryOf(accounts[j], tickerPrice);
          assert LastHeldBefore(accounts, i + 1, j, asset);
        }
      }
      i := i + 1;
    }
    RowsArePriced(snap, accounts, tickerPrice);
  }

  /** Entries copied from rows with positive free balance are priced. */
  lemma RowsArePriced(snap: Snapshot, accounts: seq<Account>, tickerPrice: string -> real)
    requires forall asset :: asset in snap ==>
               exists j :: LastHeldBefore(accounts, |accounts|, j, asset) && snap[asset] == EntryOf(accounts[j], tickerPrice)
    ensures Priced(snap, tickerPrice)
  {
  }
}

=== FILE: listener.dfy ===
/**
 The tweet-triggered buy/hold/sell controller of Stream_Tweets_And_Trade.py:
 the trade data that survives reconnects, the tweet filter, the listener's
 `create_order`, and `on_status` with its timed exit.

 Time is an integer clock in milliseconds. An order's `transactTime` is in
 milliseconds already, so the source's division by 1000 (a conversion to
 Python seconds) disappears.
 */
module Listener {
  import opened Wrappers
  import opened Text
  import opened Exchange
  import opened Trade

  const MsPerHour: int := 3600000

  /** The two values `TradeDataForKilledStream.side` ever takes. */
  datatype Side = Buy | Sell

  /** `TradeDataForKilledStream`: created once, before the reconnect loop. */
  datatype TradeData = TradeData(side: Side, buyTime: Option<int>, text: string)

  /**
   The state every reachable trade data satisfies: while waiting to sell
   there is a buy time to measure the holding period from.
   */
  predicate Consistent(d: TradeData)
  {
    d.side == Sell ==> d.buyTime.Some?
  }

  /** `TradeDataForKilledStream.__init__`. */
  function InitialTradeData(): (d: TradeData)
    ensures d.side == Buy && d.buyTime.None? && |d.text| == 0
    ensures Consistent(d)
  {
    TradeData(Buy, None, "")
  }

  /** `save_buy_order_data`: enters the sell phase, remembering when and on which text. */
  function SaveBuyOrderData(d: TradeData, buyTime: int, text: string): (d': TradeData)
    ensures d'.side == Sell && d'.buyTime == Some(buyTime) && d'.text == text
    ensures Consistent(d')
  {
    d.(side := Sell, buyTime := Some(buyTime), text := text)
  }

  /** The command-line configuration handed to every listener. */
  datatype Config = Config(username: string, ticker: string, amountToTradeUsd: real, sellHours: real)

  /** The snapshot key of the traded coin: the ticker without its `USD` suffix, case kept. */
  function Coin(cfg: Config): string
  {
    DropLast3(cfg.ticker)
  }

  /** `ticker_str`: what a tweet must mention, the coin name lower-cased. */
  function TickerStr(cfg: Config): (r: string)
    ensures NoUpper(r)
    ensures |r| == |Coin(cfg)|
    ensures forall i :: 0 <= i < |r| ==> r[i] == LowerChar(cfg.ticker[i])
  {
    Lower(Coin(cfg))
  }

  /** A ticker of three characters or fewer leaves `ticker_str` empty, and every text mentions it. */
  lemma ShortTickerMatchesAnyText(cfg: Config, text: string)
    requires |cfg.ticker| <= 3
    ensures Contains(TickerStr(cfg), text)
  {
    EmptyOccursEverywhere(text);
  }

  /** The listener's own fields; a new listener is built on every reconnect. */
  datatype Listener = Listener(executedQty: real, insufficientFunds: bool)

  /** `StreamListener.__init__`: nothing bought yet, no shortfall seen. */
  function NewListener(): (l: Listener)
    ensures l.executedQty == 0.0 && !l.insufficientFunds
  {
    Listener(0.0, false)
  }

  /**
   The parts of a tweepy status the listener reads. The three reply fields
   are `None` or a value; `retweeted` says whether `retweeted_status` exists;
   `extendedText` is `extended_tweet['full_text']` when the status has one.
   */
  datatype Status = Status(
    screenName: string,
    retweeted: bool,
    replyStatusId: Option<int>,
    replyScreenName: Option<string>,
    replyUserId: Option<int>,
    extendedText: Option<string>,
    text: string)

  /** Python truthiness of an optional id: present and not zero. */
  predicate IdSet(o: Option<int>)
  {
    o.Some? && o.value != 0
  }

  /** Python truthiness of an optional name: present and not empty. */
  predicate NameSet(o: Option<string>)
  {
    o.Some? && o.value != ""
  }

  /** `from_creator`: the status is an original tweet, neither a retweet nor a reply of any kind. */
  function FromCreator(s: Status): (b: bool)
    ensures b <==> !s.retweeted && !IdSet(s.replyStatusId) && !NameSet(s.replyScreenName) && !IdSet(s.replyUserId)
  {
    if s.retweeted then false
    else if IdSet(s.replyStatusId) then false
    else if NameSet(s.replyScreenName) then false
    else if IdSet(s.replyUserId) then false
    else true
  }

  /** The tweet's text: the extended full text when present, the short text otherwise. */
  function TweetText(s: Status): (t: string)
    ensures s.extendedText.Some? ==> t == s.extendedText.value
    ensures s.extendedText.None? ==> t == s.text
  {
    match s.extendedText
    case Some(full) => full
    case None => s.text
  }

  /**
   The filter at the top of `on_status`: only in the buy phase, only from the
   configured account (its screen name lower-cased, the configured name used
   as given), only original tweets, and only when the lower-cased text
   mentions the coin.
   */
  function Qualifies(cfg: Config, d: TradeData, s: Status): (b: bool)
    ensures b <==>
              && d.side == Buy
              && Lower(s.screenName) == cfg.username
              && !s.retweeted && !IdSet(s.replyStatusId) && !NameSet(s.replyScreenName) && !IdSet(s.replyUserId)
              && IsSubstring(TickerStr(cfg), Lower(TweetText(s)))
  {
    && d.side == Buy
    && Lower(s.screenName) == cfg.username
    && FromCreator(s)
    && Contains(TickerStr(cfg), Lower(TweetText(s)))
  }

  /**
   The configured username is compared without lower-casing it, so a name
   with a capital letter never matches any tweet.
   */
  lemma CapitalisedUsernameNeverMatches(cfg: Config, d: TradeData, s: Status, i: int)
    requires 0 <= i < |cfg.username| && IsUpper(cfg.username[i])
    ensures !Qualifies(cfg, d, s)
  {
  }

  /** Matching the account ignores the case of the tweet's screen name. */
  lemma ScreenNameCaseIgnored(cfg: Config, d: TradeData, s: Status, name: string)
    requires Lower(name) == Lower(s.screenName)
    ensures Qualifies(cfg, d, s) <==> Qualifies(cfg, d, s.(screenName := name))
  {
  }

  /** Nothing qualifies while the bot is waiting to sell. */
  lemma NothingQualifiesWhileSelling(cfg: Config, d: TradeData, s: Status)
    requires d.side == Sell
    ensures !Qualifies(cfg, d, s)
  {
  }

  /**
   Tracking "alice" with ticker "DOGEUSD", an original tweet "Buying $DOGE
   today" from "Alice" triggers a buy, and the same tweet from "bob" does not.
   */
  lemma DogeTweetScenario()
    ensures var cfg := Config("alice", "DOGEUSD", 10.0, 1.0);
            var tweet := Status("Alice", false, None, None, None, None, "Buying $DOGE today");
            && Qualifies(cfg, InitialTradeData(), tweet)
            && !Qualifies(cfg, InitialTradeData(), tweet.(screenName := "bob"))
  {
    var cfg := Config("alice", "DOGEUSD", 10.0, 1.0);
    var tweet := Status("Alice", false, None, None, None, None, "Buying $DOGE today");
    assert Coin(cfg) == "DOGE";
    assert TickerStr(cfg) == "doge";
    assert Lower(TweetText(tweet)) == "buying $doge today";
    assert "doge" <= Lower(TweetText(tweet))[8..];
    assert Lower("Alice") == "alice";
    assert Lower("bob")[0] != "alice"[0];
  }

  /** What the listener's `create_order` did when it returned normally. */
  datatype OrderCall =
    | Refused(reason: Rejection)      // a guard failed; `insufficient_funds` is set
    | Submitted(order: Option<Order>) // the trader was called; its result, possibly `None`

  /**
   The listener's `create_order`: an order call, the `ValueError` for an
   unknown side, or an exception from a balance read (`check_balances`
   raising, in the listener or inside the trader), which propagates.
   */
  datatype CreateResult = Called(call: OrderCall) | IncorrectSide | ReadFailed

  /** `insufficient_funds` after `create_order` returns normally: set on a refusal, cleared once the trader is called. */
  function RecordCall(l: Listener, call: OrderCall): (l': Listener)
    ensures l'.insufficientFunds <==> call.Refused?
    ensures l'.executedQty == l.executedQty
  {
    l.(insufficientFunds := call.Refused?)
  }

  /**
   A balance read is the snapshot `check_balances` returned, or `None` when
   an exchange call inside it raised. A snapshot that was read holds the
   keys the guards index; the source raises `KeyError` otherwise.
   */
  predicate ReadOk(read: Option<Snapshot>)
  {
    read.Some? ==> Readable(read.value)
  }

  predicate SellReadOk(read: Option<Snapshot>, coin: string)
  {
    read.Some? ==> SellReadable(read.value, coin)
  }

  /** The balance reads `create_order` makes (its own and the trader's) hold the keys it indexes. */
  predicate CanCreate(cfg: Config, side: string, snap: Option<Snapshot>, traderSnap: Option<Snapshot>)
  {
    && ReadOk(snap)
    && ReadOk(traderSnap)
    && (Lower(side) == "sell" ==> SellReadOk(snap, Coin(cfg)) && SellReadOk(traderSnap, Coin(cfg)))
  }

  /**
   `StreamListener.create_order`: reads the balances first, then runs the buy
   or sell guard on that snapshot; if the guard passes, delegates to the
   trader, which reads the balances again, checks again and calls the exchange.
   */
  function CreateOrder(cfg: Config, executedQty: real, side: string,
                       snap: Option<Snapshot>, traderSnap: Option<Snapshot>, reply: Reply): (r: CreateResult)
    requires CanCreate(cfg, side, snap, traderSnap)
    ensures snap.None? ==> r == ReadFailed
    ensures r.IncorrectSide? <==> snap.Some? && Lower(side) != "buy" && Lower(side) != "sell"
    ensures snap.Some? && Lower(side) == "buy" ==>
              && (r.Called? && r.call.Refused? <==>
                    !CanAffordBuy(snap.value[Usd].amount, snap.value[Bnb].usdInvested, cfg.amountToTradeUsd))
              && (r == ReadFailed <==>
                    CanAffordBuy(snap.value[Usd].amount, snap.value[Bnb].usdInvested, cfg.amountToTradeUsd)
                    && traderSnap.None?)
    ensures snap.Some? && Lower(side) == "sell" ==>
              && (r.Called? && r.call.Refused? <==>
                    ListenerSellVerdict(snap.value, Coin(cfg), executedQty, cfg.amountToTradeUsd).Rejected?)
              && (r == ReadFailed <==>
                    ListenerSellVerdict(snap.value, Coin(cfg), executedQty, cfg.amountToTradeUsd) == Feasible
                    && traderSnap.None?)
    ensures snap.Some? && traderSnap.Some? && Lower(side) == "buy"
            && CanAffordBuy(snap.value[Usd].amount, snap.value[Bnb].usdInvested, cfg.amountToTradeUsd) ==>
              r == Called(Submitted(CreateBuyOrder(cfg.amountToTradeUsd, traderSnap.value, reply)))
    ensures snap.Some? && traderSnap.Some? && Lower(side) == "sell"
            && ListenerSellVerdict(snap.value, Coin(cfg), executedQty, cfg.amountToTradeUsd) == Feasible ==>
              r == Called(Submitted(CreateSellOrder(cfg.ticker, executedQty, traderSnap.value, reply)))
    ensures Lower(side) == "sell" && r.Called? && r.call.Refused? ==> r.call.reason != ShortOfUsd
    ensures r.Called? && r.call.Submitted? && r.call.order.Some? ==> reply.Placed? && r.call.order.value == reply.order
  {
    match snap
    case None => ReadFailed
    case Some(prices) =>
      if Lower(side) == "buy" then
        match BuyVerdict(prices[Usd].amount, prices[Bnb].usdInvested, cfg.amountToTradeUsd)
        case Rejected(why) => Called(Refused(why))
        case Feasible =>
          if traderSnap.None? then ReadFailed
          else Called(Submitted(CreateBuyOrder(cfg.amountToTradeUsd, traderSnap.value, reply)))
      else if Lower(side) == "sell" then
        match ListenerSellVerdict(prices, Coin(cfg), executedQty, cfg.amountToTradeUsd)
        case Rejected(why) => Called(Refused(why))
        case Feasible =>
          if traderSnap.None? then ReadFailed
          else Called(Submitted(CreateSellOrder(cfg.ticker, executedQty, traderSnap.value, reply)))
      else
        IncorrectSide
  }

  /**
   When the trader sees the same snapshot as the listener, its repeated buy
   check always passes, so the exchange's reply alone decides whether an
   order comes back.
   */
  lemma BuyRecheckAgrees(cfg: Config, executedQty: real, snap: Snapshot, reply: Reply)
    requires Readable(snap)
    requires CanAffordBuy(snap[Usd].amount, snap[Bnb].usdInvested, cfg.amountToTradeUsd)
    ensures CreateOrder(cfg, executedQty, "buy", Some(snap), Some(snap), reply)
              == Called(Submitted(if reply.Placed? then Some(reply.order) else None))
  {
  }

  /**
   The fee mismatch between the two sell checks is visible: when the
   listener's check passes and the trader's refuses (SellChecksDisagree shows
   such a snapshot), the listener clears `insufficient_funds` although no
   order is placed.
   */
  lemma SellFeeMismatchHidesRefusal(cfg: Config, executedQty: real, snap: Snapshot, reply: Reply)
    requires SellReadable(snap, Coin(cfg))
    requires ListenerSellVerdict(snap, Coin(cfg), executedQty, cfg.amountToTradeUsd) == Feasible
    requires TraderSellVerdict(snap, Coin(cfg), executedQty).Rejected?
    ensures CanCreate(cfg, "sell", Some(snap), Some(snap))
    ensures CreateOrder(cfg, executedQty, "sell", Some(snap), Some(snap), reply) == Called(Submitted(None))
  {
  }

  /** The holding period has passed: strictly more than `sellHours` hours since the buy. */
  predicate Expired(now: int, buyTime: int, sellHours: real)
  {
    (now - buyTime) as real > sellHours * MsPerHour as real
  }

  /**
   The sell-phase polling loop of `on_status`, over the clock readings it
   takes one second apart: the index of the first reading past the holding
   period, or `None` when every reading given is still inside it.
   */
  function FirstExpiry(polls: seq<int>, buyTime: int, sellHours: real): (k: Option<nat>)
    ensures k.Some? ==> k.value < |polls| && Expired(polls[k.value], buyTime, sellHours)
    ensures k.Some? ==> forall j :: 0 <= j < k.value ==> !Expired(polls[j], buyTime, sellHours)
    ensures k.None? <==> forall j :: 0 <= j < |polls| ==> !Expired(polls[j], buyTime, sellHours)
  {
    if |polls| == 0 then None
    else if Expired(polls[0], buyTime, sellHours) then Some(0)
    else match FirstExpiry(polls[1..], buyTime, sellHours)
      case None => None
      case Some(k) => Some(k + 1)
  }

  /** Some reading of the polling loop is past the holding period. */
  predicate AnyExpired(polls: seq<int>, buyTime: int, sellHours: real)
  {
    exists j :: 0 <= j < |polls| && Expired(polls[j], buyTime, sellHours)
  }

  /**
   Everything `on_status` consults besides the listener and the trade data:
   the balance reads and exchange replies of the buy and of the sell, the
   clock reading used when a buy returns no order, and the clock readings of
   the polling loop.
   */
  datatype World = World(
    buySnap: Option<Snapshot>, buyTraderSnap: Option<Snapshot>, buyReply: Reply, buyNow: int,
    polls: seq<int>,
    sellSnap: Option<Snapshot>, sellTraderSnap: Option<Snapshot>, sellReply: Reply)

  /** Every snapshot the world's balance reads return holds the keys `create_order` reads. */
  predicate WorldReadable(cfg: Config, w: World)
  {
    && CanCreate(cfg, "buy", w.buySnap, w.buyTraderSnap)
    && CanCreate(cfg, "sell", w.sellSnap, w.sellTraderSnap)
  }

  /**
   What one `on_status` call did: the new listener and trade data, the buy
   and sell calls it made (if any), whether it is still inside the polling
   loop when the readings run out, and whether a balance read raised, which
   ends the call and, through the stream, the connection.
   */
  datatype Reaction = Reaction(listener: Listener, data: TradeData,
                               buy: Option<OrderCall>, sell: Option<OrderCall>,
                               waiting: bool, aborted: bool)

  /**
   The sell half of `on_status`: poll until the holding period has passed,
   flip back to the buy phase, then try to sell `executed_qty`, whatever
   the outcome, even when reading the balances for the sell raises.
   */
  function SellPhase(cfg: Config, l: Listener, d: TradeData, w: World, buy: Option<OrderCall>): (r: Reaction)
    requires d.side == Sell && d.buyTime.Some?
    requires WorldReadable(cfg, w)
    ensures r.buy == buy
    ensures r.data.side == Sell <==> r.waiting
    ensures r.waiting ==> !r.aborted
    ensures r.data.buyTime == d.buyTime && r.data.text == d.text
    ensures r.listener.executedQty == l.executedQty
    ensures r.sell.Some? || r.aborted <==> AnyExpired(w.polls, d.buyTime.value, cfg.sellHours)
    ensures r.aborted ==> r.sell.None? && r.listener == l
    ensures w.sellSnap.Some? && w.sellTraderSnap.Some? ==> !r.aborted
    ensures r.sell.Some? ==>
              && w.sellSnap.Some?
              && (r.sell.value.Refused? <==>
                    ListenerSellVerdict(w.sellSnap.value, Coin(cfg), l.executedQty, cfg.amountToTradeUsd).Rejected?)
    ensures r.sell.Some? ==> r.listener.insufficientFunds == r.sell.value.Refused?
    ensures r.sell.None? ==> r.listener == l
    ensures AnyExpired(w.polls, d.buyTime.value, cfg.sellHours) && w.sellSnap.Some? && w.sellTraderSnap.Some?
            && ListenerSellVerdict(w.sellSnap.value, Coin(cfg), l.executedQty, cfg.amountToTradeUsd) == Feasible ==>
              r.sell == Some(Submitted(CreateSellOrder(cfg.ticker, l.executedQty, w.sellTraderSnap.value, w.sellReply)))
  {
    match FirstExpiry(w.polls, d.buyTime.value, cfg.sellHours)
    case None => Reaction(l, d, buy, None, true, false)
    case Some(_) =>
      assert Lower("sell") == "sell";
      var flipped := d.(side := Buy);
      match CreateOrder(cfg, l.executedQty, "sell", w.sellSnap, w.sellTraderSnap, w.sellReply)
      case Called(call) => Reaction(RecordCall(l, call), flipped, buy, Some(call), false, false)
      case _ => Reaction(l, flipped, buy, None, false, true)
  }

  /**
   `StreamListener.on_status`. In the buy phase a qualifying tweet runs the
   buy; if the listener's guard refuses, or a balance read raises, nothing
   else happens. Otherwise the trade data enters the sell phase, timed from
   the order's `transactTime` (or from the clock when no order came back),
   and the same call carries on into the sell phase. A status arriving in
   the sell phase goes straight to the polling loop, whatever it says.
   */
  function OnStatus(cfg: Config, l: Listener, d: TradeData, s: Status, w: World): (r: Reaction)
    requires Consistent(d)
    requires WorldReadable(cfg, w)
    ensures Consistent(r.data)
    ensures r.data.side == Sell <==> r.waiting
    ensures r.waiting ==> !r.aborted
    ensures r.buy.Some? ==> Qualifies(cfg, d, s)
    ensures Qualifies(cfg, d, s) ==> r.buy.Some? || r.aborted
    ensures r.buy.None? && d.side == Buy ==> r == Reaction(l, d, None, None, false, r.aborted)
    ensures r.sell.Some? ==> r.data.side == Buy
    ensures r.aborted ==> r.data.side == Buy && r.sell.None?
  {
    if d.side == Buy then
      if !Qualifies(cfg, d, s) then Reaction(l, d, None, None, false, false)
      else
        assert Lower("buy") == "buy";
        match CreateOrder(cfg, l.executedQty, "buy", w.buySnap, w.buyTraderSnap, w.buyReply)
        case Called(call) =>
          var l1 := RecordCall(l, call);
          (match call
           case Refused(_) => Reaction(l1, d, Some(call), None, false, false)
           case Submitted(order) =>
             var buyTime := if order.Some? then order.value.transactTime else w.buyNow;
             var l2 := if order.Some? then l1.(executedQty := order.value.executedQty) else l1;
             SellPhase(cfg, l2, SaveBuyOrderData(d, buyTime, TweetText(s)), w, Some(call)))
        case _ => Reaction(l, d, None, None, false, true)
    else
      SellPhase(cfg, l, d, w, None)
  }

  /**
   A qualifying tweet whose buy the listener's guard refuses leaves the
   trade data and `executed_qty` untouched and only raises `insufficient_funds`.
   */
  lemma RefusedBuyChangesNothing(cfg: Config, l: Listener, d: TradeData, s: Status, w: World)
    requires Consistent(d) && WorldReadable(cfg, w)
    requires Qualifies(cfg, d, s)
    requires w.buySnap.Some?
    requires !CanAffordBuy(w.buySnap.value[Usd].amount, w.buySnap.value[Bnb].usdInvested, cfg.amountToTradeUsd)
    ensures var r := OnStatus(cfg, l, d, s, w);
            && r.data == d
            && r.listener == l.(insufficientFunds := true)
            && r.buy == Some(Refused(ShortOfUsd))
            && r.sell.None? && !r.waiting && !r.aborted
  {
  }

  /**
   A qualifying tweet whose buy raises while reading the balances (the
   listener's read, or the trader's once the listener's guard passed)
   changes neither the listener nor the trade data; the call ends there.
   */
  lemma FailedBuyReadChangesNothing(cfg: Config, l: Listener, d: TradeData, s: Status, w: World)
    requires Consistent(d) && WorldReadable(cfg, w)
    requires Qualifies(cfg, d, s)
    requires w.buySnap.None? ||
             (CanAffordBuy(w.buySnap.value[Usd].amount, w.buySnap.value[Bnb].usdInvested, cfg.amountToTradeUsd)
              && w.buyTraderSnap.None?)
    ensures OnStatus(cfg, l, d, s, w) == Reaction(l, d, None, None, false, true)
  {
  }

  /**
   A qualifying tweet whose buy passes the listener's guard, with the
   trader's balance read succeeding, enters the sell phase: the buy time is
   the order's `transactTime`, or the clock when no order came back; the
   text is the tweet's; `executed_qty` changes only when an order came back;
   `insufficient_funds` is cleared. The same call then polls from that buy time.
   */
  lemma AcceptedBuyStartsHolding(cfg: Config, l: Listener, d: TradeData, s: Status, w: World)
    requires Consistent(d) && WorldReadable(cfg, w)
    requires Qualifies(cfg, d, s)
    requires w.buySnap.Some? && w.buyTraderSnap.Some?
    requires CanAffordBuy(w.buySnap.value[Usd].amount, w.buySnap.value[Bnb].usdInvested, cfg.amountToTradeUsd)
    ensures var order := CreateBuyOrder(cfg.amountToTradeUsd, w.buyTraderSnap.value, w.buyReply);
            var buyTime := if order.Some? then order.value.transactTime else w.buyNow;
            var r := OnStatus(cfg, l, d, s, w);
            && r.buy == Some(Submitted(order))
            && r.data.buyTime == Some(buyTime)
            && r.data.text == TweetText(s)
            && r.listener.executedQty == (if order.Some? then order.value.executedQty else l.executedQty)
            && (r.sell.None? ==> !r.listener.insufficientFunds)
            && (r.waiting <==> !AnyExpired(w.polls, buyTime, cfg.sellHours))
  {
  }

  /**
   The one path on which the bot sells: a qualifying tweet whose buy passes
   the listener's guard, followed in the same call by a clock reading past
   the holding period. The sell hands the trader the quantity the buy order
   reported (or the listener's earlier `executed_qty` when no order came
   back), and its result is exactly what `create_sell_order` returns.
   */
  lemma BuyThenTimedSell(cfg: Config, l: Listener, d: TradeData, s: Status, w: World)
    requires Consistent(d) && WorldReadable(cfg, w)
    requires Qualifies(cfg, d, s)
    requires w.buySnap.Some? && w.buyTraderSnap.Some?
    requires CanAffordBuy(w.buySnap.value[Usd].amount, w.buySnap.value[Bnb].usdInvested, cfg.amountToTradeUsd)
    requires w.sellSnap.Some? && w.sellTraderSnap.Some?
    requires var order := CreateBuyOrder(cfg.amountToTradeUsd, w.buyTraderSnap.value, w.buyReply);
             var buyTime := if order.Some? then order.value.transactTime else w.buyNow;
             var q := if order.Some? then order.value.executedQty else l.executedQty;
             && AnyExpired(w.polls, buyTime, cfg.sellHours)
             && ListenerSellVerdict(w.sellSnap.value, Coin(cfg), q, cfg.amountToTradeUsd) == Feasible
    ensures var order := CreateBuyOrder(cfg.amountToTradeUsd, w.buyTraderSnap.value, w.buyReply);
            var q := if order.Some? then order.value.executedQty else l.executedQty;
            var r := OnStatus(cfg, l, d, s, w);
            && r.buy == Some(Submitted(order))
            && r.sell == Some(Submitted(CreateSellOrder(cfg.ticker, q, w.sellTraderSnap.value, w.sellReply)))
            && r.data.side == Buy && !r.waiting && !r.aborted
  {
  }

  /**
   In the sell phase a status of any kind resumes the polling loop from the
   stored buy time. Only the model's `waiting` state leaves a call in the
   sell phase, so only there does a status arrive in it. No sell happens
   while every reading is within the holding period; otherwise the phase is
   back to buy and, when both balance reads succeed, the sell is tried with
   the listener's `executed_qty`, whatever its outcome.
   */
  lemma TimedExit(cfg: Config, l: Listener, d: TradeData, s: Status, w: World)
    requires Consistent(d) && WorldReadable(cfg, w)
    requires d.side == Sell
    ensures var r := OnStatus(cfg, l, d, s, w);
            && r.buy.None?
            && r.data.buyTime == d.buyTime && r.data.text == d.text
            && (!AnyExpired(w.polls, d.buyTime.value, cfg.sellHours) ==> r == Reaction(l, d, None, None, true, false))
            && (AnyExpired(w.polls, d.buyTime.value, cfg.sellHours) ==> r.data.side == Buy && (r.sell.Some? || r.aborted))
            && (AnyExpired(w.polls, d.buyTime.value, cfg.sellHours) && w.sellSnap.Some? && w.sellTraderSnap.Some? ==>
                  && r.sell.Some?
                  && (r.sell.value.Refused? <==>
                        ListenerSellVerdict(w.sellSnap.value, Coin(cfg), l.executedQty, cfg.amountToTradeUsd).Rejected?))
  {
  }

  /**
   The phase flips to buy before the sell's balances are read: when that
   read raises, the call ends in the buy phase with no sell attempted, and
   the position bought earlier is no longer tracked.
   */
  lemma FailedSellReadLeavesBuyPhase(cfg: Config, l: Listener, d: TradeData, s: Status, w: World)
    requires Consistent(d) && WorldReadable(cfg, w)
    requires d.side == Sell
    requires AnyExpired(w.polls, d.buyTime.value, cfg.sellHours)
    requires w.sellSnap.None?
    ensures OnStatus(cfg, l, d, s, w) == Reaction(l, d.(side := Buy), None, None, false, true)
  {
  }

  /**
   A listener built on reconnect starts with `executed_qty` 0, so if the trade
   data it inherits were still in the sell phase, its sell would be refused
   as below the 10 USD minimum.
   */
  lemma ReconnectedSellIsBelowMinimum(cfg: Config, d: TradeData, s: Status, w: World)
    requires Consistent(d) && WorldReadable(cfg, w)
    requires d.side == Sell
    requires w.sellSnap.Some? ==> w.sellSnap.value[Coin(cfg)].amount >= 0.0
    ensures var r := OnStatus(cfg, NewListener(), d, s, w);
            r.sell.Some? ==> r.sell.value == Refused(BelowMinimum) && r.listener.insufficientFunds
  {
  }
}

=== FILE: supervisor.dfy ===
/**
 The reconnect loop at the bottom of Stream_Tweets_And_Trade.py: one
 `TradeDataForKilledStream` is created before the loop, and every pass of
 `while True` builds a new `StreamListener` around that same object. Clients,
 credentials, exceptions and the five-second back-off are not modelled; a
 connection is the finite sequence of statuses it delivers.
 */
module Supervisor {
  import opened Trade
  import opened Listener

  /** One status delivered by the stream, with the world `on_status` sees while handling it. */
  datatype Event = Event(status: Status, world: World)

  predicate EventsReadable(cfg: Config, events: seq<Event>)
  {
    forall i :: 0 <= i < |events| ==> WorldReadable(cfg, events[i].world)
  }

  predicate ConnectionsReadable(cfg: Config, connections: seq<seq<Event>>)
  {
    forall i :: 0 <= i < |connections| ==> EventsReadable(cfg, connections[i])
  }

  /** Where a connection left the listener and the trade data, and whether it ended inside the polling loop. */
  datatype Run = Run(listener: Listener, data: TradeData, waiting: bool)

  /**
   One stream connection: statuses go to the same listener in order. The
   connection ends when its statuses run out, when a call raises (a balance
   read failed), or when a call is still in the polling loop as its clock
   readings run out; later statuses are then never delivered to this listener.
   */
  function Connection(cfg: Config, l: Listener, d: TradeData, events: seq<Event>): (r: Run)
    requires Consistent(d)
    requires EventsReadable(cfg, events)
    ensures Consistent(r.data)
    ensures |events| > 0 ==> (r.data.side == Sell <==> r.waiting)
    ensures |events| == 0 ==> r == Run(l, d, false)
    ensures |events| > 0 ==>
              var x := OnStatus(cfg, l, d, events[0].status, events[0].world);
              (x.aborted ==> r == Run(x.listener, x.data, false))
              && (x.waiting ==> r == Run(x.listener, x.data, true))
    decreases |events|
  {
    if |events| == 0 then Run(l, d, false)
    else
      var x := OnStatus(cfg, l, d, events[0].status, events[0].world);
      if x.waiting || x.aborted || |events| == 1 then Run(x.listener, x.data, x.waiting)
      else Connection(cfg, x.listener, x.data, events[1..])
  }

  /**
   Within one connection the second status is handled by the listener the
   first left behind: `executed_qty` and `insufficient_funds` carry over
   from status to status and are reset only by a reconnect.
   */
  lemma ListenerKeptWithinConnection(cfg: Config, l: Listener, d: TradeData, e1: Event, e2: Event)
    requires Consistent(d) && WorldReadable(cfg, e1.world) && WorldReadable(cfg, e2.world)
    ensures EventsReadable(cfg, [e1, e2])
    ensures var x := OnStatus(cfg, l, d, e1.status, e1.world);
            !x.waiting && !x.aborted ==>
              var y := OnStatus(cfg, x.listener, x.data, e2.status, e2.world);
              Connection(cfg, l, d, [e1, e2]) == Run(y.listener, y.data, y.waiting)
  {
    assert [e1, e2][1..] == [e2];
  }

  /**
   The `while True` loop: each connection gets a fresh listener (`executed_qty`
   back to 0) and the trade data the previous connections left behind.
   */
  function Supervise(cfg: Config, d: TradeData, connections: seq<seq<Event>>): (d': TradeData)
    requires Consistent(d)
    requires ConnectionsReadable(cfg, connections)
    ensures Consistent(d')
    decreases |connections|
  {
    if |connections| == 0 then d
    else Supervise(cfg, Connection(cfg, NewListener(), d, connections[0]).data, connections[1..])
  }

  /**
   Adding a connection at the end runs it with a new listener on exactly the
   trade data the earlier connections produced: the object is shared, the
   listener is not.
   */
  lemma {:induction false} SuperviseAppend(cfg: Config, d: TradeData, connections: seq<seq<Event>>, last: seq<Event>)
    requires Consistent(d)
    requires ConnectionsReadable(cfg, connections)
    requires EventsReadable(cfg, last)
    ensures ConnectionsReadable(cfg, connections + [last])
    ensures Supervise(cfg, d, connections + [last])
              == Connection(cfg, NewListener(), Supervise(cfg, d, connections), last).data
    decreases |connections|
  {
    var all := connections + [last];
    assert forall i :: 0 <= i < |connections| ==> all[i] == connections[i];
    assert all[|connections|] == last;
    if |connections| > 0 {
      var d1 := Connection(cfg, NewListener(), d, connections[0]).data;
      assert all[1..] == connections[1..] + [last];
      assert all[0] == connections[0];
      SuperviseAppend(cfg, d1, connections[1..], last);
    } else {
      assert all[1..] == [];
    }
  }

  /**
   If a connection were to end while waiting to sell (a state of this model
   only: the polling loop always returns to the buy phase before it exits),
   its buy time would pass to the next connection, whose first status would
   resume the polling loop from that buy time. Because the new listener's
   `executed_qty` is 0, the sell it then tried would be refused as below the
   10 USD minimum.
   */
  lemma ReconnectResumesHolding(cfg: Config, d: TradeData, dropped: seq<Event>, next: Event)
    requires Consistent(d)
    requires EventsReadable(cfg, dropped) && WorldReadable(cfg, next.world)
    requires Connection(cfg, NewListener(), d, dropped).data.side == Sell
    requires next.world.sellSnap.Some? ==> next.world.sellSnap.value[Coin(cfg)].amount >= 0.0
    ensures var kept := Connection(cfg, NewListener(), d, dropped).data;
            var r := OnStatus(cfg, NewListener(), kept, next.status, next.world);
            && r.data.buyTime == kept.buyTime
            && (r.sell.Some? || r.aborted <==> AnyExpired(next.world.polls, kept.buyTime.value, cfg.sellHours))
            && (r.sell.Some? ==> r.sell.value == Refused(BelowMinimum))
  {
  }
}

=== FILE: text.dfy ===
/**
 String handling used by the tweet filter: ASCII lower-casing, Python's
 `s[:-3]` slice and Python's `in` test on strings.
 */
module Text {

  /** An ASCII upper-case letter, the only characters lower-casing changes here. */
  predicate IsUpper(c: char)
  {
    'A' <= c <= 'Z'
  }

  /** True when no character of `s` is an upper-case letter. */
  predicate NoUpper(s: string)
  {
    forall i :: 0 <= i < |s| ==> !IsUpper(s[i])
  }

  /** Python's `str.lower()` on one character, restricted to ASCII letters. */
  function LowerChar(c: char): (r: char)
    ensures !IsUpper(r)
    ensures !IsUpper(c) ==> r == c
    ensures IsUpper(c) ==> 'a' <= r <= 'z' && r as int - c as int == 32
  {
    if IsUpper(c) then (c as int + 32) as char else c
  }

  /** Python's `str.lower()`: same length, no upper-case letter left, everything else kept. */
  function Lower(s: string): (r: string)
    ensures |r| == |s|
    ensures NoUpper(r)
    ensures forall i :: 0 <= i < |s| && !IsUpper(s[i]) ==> r[i] == s[i]
    ensures forall i :: 0 <= i < |s| ==> r[i] == LowerChar(s[i])
  {
    seq(|s|, i requires 0 <= i < |s| => LowerChar(s[i]))
  }

  /** Python's `t[:-3]`: the prefix of `t` without its last three characters, empty when `t` is shorter. */
  function DropLast3(t: string): (r: string)
    ensures r <= t
    ensures |t| >= 3 ==> |r| + 3 == |t|
    ensures |t| < 3 ==> r == []
  {
    if |t| >= 3 then t[..|t| - 3] else []
  }

  /** Python's `needle in hay` on strings: `needle` occurs at some offset of `hay`. */
  ghost predicate IsSubstring(needle: string, hay: string)
  {
    exists i :: 0 <= i <= |hay| && needle <= hay[i..]
  }

  /** An occurrence is either at offset 0 or inside the tail. */
  lemma SubstringStep(needle: string, hay: string)
    ensures IsSubstring(needle, hay) <==> needle <= hay || (|hay| > 0 && IsSubstring(needle, hay[1..]))
  {
    assert hay[0..] == hay;
    if |hay| > 0 && IsSubstring(needle, hay[1..]) {
      var i :| 0 <= i <= |hay[1..]| && needle <= hay[1..][i..];
      assert hay[1..][i..] == hay[i + 1..];
    }
    if IsSubstring(needle, hay) && !(needle <= hay) {
      var i :| 0 <= i <= |hay| && needle <= hay[i..];
      assert hay[1..][i - 1..] == hay[i..];
    }
  }

  /** Decides Python's `needle in hay` by scanning offsets from the left. */
  function Contains(needle: string, hay: string): (b: bool)
    ensures b <==> IsSubstring(needle, hay)
    decreases |hay|
  {
    SubstringStep(needle, hay);
    if needle <= hay then true
    else if |hay| == 0 then false
    else Contains(needle, hay[1..])
  }

  /** The empty string occurs in every string, as Python's `'' in s` is always true. */
  lemma EmptyOccursEverywhere(hay: string)
    ensures Contains([], hay)
  {
  }
}

=== FILE: trade.dfy ===
/**
 The funds checks that gate every order, and `BinanceTrading`'s own
 `create_buy_order` / `create_sell_order` (Trade.py). The listener in
 Stream_Tweets_And_Trade.py runs the same buy check and a sell check whose
 fee is computed differently; both sell checks live here, side by side.
 */
module Trade {
  import opened Wrappers
  import opened Text
  import opened Exchange

  /** The trading fee reserved on every order: 0.1% of a USD notional. */
  const FeeRate: real := 0.001

  /** The smallest sell, in USD, the bot submits. */
  const MinSellUsd: real := 10.0

  function Fee(notional: real): real
  {
    FeeRate * notional
  }

  /** Why a guard refused an order; the source prints a message for each. */
  datatype Rejection =
    | ShortOfUsd     // the USD balance is below the buy's notional
    | ShortOfCoin    // the coin balance is below the quantity to sell
    | BelowMinimum   // the sell is worth less than MinSellUsd
    | FeeUncovered   // neither USD nor BNB covers the sell's fee

  datatype Verdict = Feasible | Rejected(reason: Rejection)

  function Max(a: real, b: real): real
  {
    if a >= b then a else b
  }

  /**
   The fee buffer policy stated independently of the guards: the principal is
   available, and the better of the two fee sources (USD left over after the
   principal, or the USD value of BNB) covers the fee.
   */
  predicate CanAffordBuy(usd: real, bnbUsd: real, notional: real)
  {
    usd >= notional && Max(usd - notional, bnbUsd) >= Fee(notional)
  }

  /**
   The buy check, written identically in `StreamListener.create_order` and
   `BinanceTrading.create_buy_order`: reject when USD is below the notional,
   or when neither the USD surplus nor the BNB value reaches the fee.
   */
  function BuyVerdict(usd: real, bnbUsd: real, notional: real): (v: Verdict)
    ensures v == Feasible <==> CanAffordBuy(usd, bnbUsd, notional)
    ensures v != Feasible ==> v == Rejected(ShortOfUsd)
  {
    if usd < notional || (usd - notional < Fee(notional) && bnbUsd < Fee(notional)) then
      Rejected(ShortOfUsd)
    else
      Feasible
  }

  /** With exactly the notional in USD, a buy goes through precisely when BNB covers the fee. */
  lemma ExactUsdNeedsBnbForFee(bnbUsd: real, notional: real)
    requires notional > 0.0
    ensures BuyVerdict(notional, bnbUsd, notional) == Feasible <==> bnbUsd >= Fee(notional)
  {
  }

  /** More USD or more BNB never turns an accepted buy into a rejected one. */
  lemma BuyVerdictMonotone(usd: real, bnbUsd: real, usd': real, bnbUsd': real, notional: real)
    requires usd <= usd' && bnbUsd <= bnbUsd'
    requires BuyVerdict(usd, bnbUsd, notional) == Feasible
    ensures BuyVerdict(usd', bnbUsd', notional) == Feasible
  {
  }

  /**
   The three sell checks in their fixed order, for a given fee: inventory
   first, then the 10 USD minimum, then the fee; the first failure is the
   reason reported.
   */
  function SellChecks(held: real, quantity: real, sellUsd: real, usd: real, bnbUsd: real, fee: real): (v: Verdict)
    ensures v == Feasible <==> held >= quantity && sellUsd >= MinSellUsd && (usd >= fee || bnbUsd >= fee)
    ensures v == Rejected(ShortOfCoin) <==> held < quantity
    ensures v == Rejected(BelowMinimum) <==> held >= quantity && sellUsd < MinSellUsd
    ensures v == Rejected(FeeUncovered) <==> held >= quantity && sellUsd >= MinSellUsd && usd < fee && bnbUsd < fee
    ensures v != Rejected(ShortOfUsd)
  {
    if held < quantity then Rejected(ShortOfCoin)
    else if sellUsd < MinSellUsd then Rejected(BelowMinimum)
    else if usd < fee && bnbUsd < fee then Rejected(FeeUncovered)
    else Feasible
  }

  /** A snapshot the sell checks can read: USD, BNB and the traded coin are all present. */
  predicate SellReadable(snap: Snapshot, coin: string)
  {
    Readable(snap) && coin in snap
  }

  /**
   The listener's sell check (`StreamListener.create_order('sell')`): the
   quantity is the listener's `executed_qty`, and the fee is 0.1% of the
   configured buy notional, not of the value being sold.
   */
  function ListenerSellVerdict(snap: Snapshot, coin: string, executedQty: real, amountToTradeUsd: real): (v: Verdict)
    requires SellReadable(snap, coin)
    ensures v == Feasible <==>
              && snap[coin].amount >= executedQty
              && snap[coin].pricePerCoin * executedQty >= MinSellUsd
              && (snap[Usd].amount >= Fee(amountToTradeUsd) || snap[Bnb].usdInvested >= Fee(amountToTradeUsd))
    ensures v == Rejected(ShortOfCoin) <==> snap[coin].amount < executedQty
  {
    SellChecks(snap[coin].amount, executedQty, snap[coin].pricePerCoin * executedQty,
               snap[Usd].amount, snap[Bnb].usdInvested, Fee(amountToTradeUsd))
  }

  /**
   `BinanceTrading.create_sell_order`'s check: the fee is 0.1% of the USD
   value being sold.
   */
  function TraderSellVerdict(snap: Snapshot, coin: string, quantity: real): (v: Verdict)
    requires SellReadable(snap, coin)
    ensures v == Feasible <==>
              && snap[coin].amount >= quantity
              && snap[coin].pricePerCoin * quantity >= MinSellUsd
              && (snap[Usd].amount >= Fee(snap[coin].pricePerCoin * quantity)
                  || snap[Bnb].usdInvested >= Fee(snap[coin].pricePerCoin * quantity))
    ensures v == Rejected(ShortOfCoin) <==> snap[coin].amount < quantity
  {
    var sellUsd := snap[coin].pricePerCoin * quantity;
    SellChecks(snap[coin].amount, quantity, sellUsd, snap[Usd].amount, snap[Bnb].usdInvested, Fee(sellUsd))
  }

  /** A sell worth less than 10 USD is refused by both sell checks, whatever the other balances. */
  lemma SmallSellAlwaysRefused(snap: Snapshot, coin: string, quantity: real, amountToTradeUsd: real)
    requires SellReadable(snap, coin)
    requires snap[coin].pricePerCoin * quantity < MinSellUsd
    ensures ListenerSellVerdict(snap, coin, quantity, amountToTradeUsd).Rejected?
    ensures TraderSellVerdict(snap, coin, quantity).Rejected?
  {
  }

  /**
   When the value being sold does not exceed the configured notional, the
   trader's fee is no larger than the listener's, so a sell the listener
   accepts is also accepted by the trader on the same snapshot.
   */
  lemma ListenerSellImpliesTraderSell(snap: Snapshot, coin: string, quantity: real, amountToTradeUsd: real)
    requires SellReadable(snap, coin)
    requires snap[coin].pricePerCoin * quantity <= amountToTradeUsd
    requires ListenerSellVerdict(snap, coin, quantity, amountToTradeUsd) == Feasible
    ensures TraderSellVerdict(snap, coin, quantity) == Feasible
  {
  }

  /**
   The two sell checks disagree: selling 1 coin worth 1000 USD against a
   10 USD notional, with 0.5 USD and 0.5 USD of BNB, passes the listener's
   check (fee 0.01) and fails the trader's (fee 1).
   */
  lemma SellChecksDisagree()
    ensures var snap := map[Usd := Entry(0.5, 0.5, 1.0), Bnb := Entry(0.001, 0.5, 500.0), "DOGE" := Entry(1.0, 1000.0, 1000.0)];
            && ListenerSellVerdict(snap, "DOGE", 1.0, 10.0) == Feasible
            && TraderSellVerdict(snap, "DOGE", 1.0) == Rejected(FeeUncovered)
  {
  }

  /**
   `BinanceTrading.create_buy_order`: re-checks funds on its own snapshot and
   only then calls the exchange; a refused check and an exchange exception
   both come back as `None`.
   */
  function CreateBuyOrder(quoteOrderQty: real, snap: Snapshot, reply: Reply): (r: Option<Order>)
    requires Readable(snap)
    ensures r.Some? <==> CanAffordBuy(snap[Usd].amount, snap[Bnb].usdInvested, quoteOrderQty) && reply.Placed?
    ensures r.Some? ==> r.value == reply.order
  {
    if BuyVerdict(snap[Usd].amount, snap[Bnb].usdInvested, quoteOrderQty).Rejected? then None
    else match reply
      case Placed(order) => Some(order)
      case ApiError => None
  }

  /**
   `BinanceTrading.create_sell_order`: the coin is the symbol without its
   last three characters; refused checks and exchange exceptions give `None`.
   */
  function CreateSellOrder(symbol: string, quantity: real, snap: Snapshot, reply: Reply): (r: Option<Order>)
    requires SellReadable(snap, DropLast3(symbol))
    ensures r.Some? <==> TraderSellVerdict(snap, DropLast3(symbol), quantity) == Feasible && reply.Placed?
    ensures r.Some? ==> r.value == reply.order
    ensures snap[DropLast3(symbol)].pricePerCoin * quantity < MinSellUsd ==> r == None
  {
    if TraderSellVerdict(snap, DropLast3(symbol), quantity).Rejected? then None
    else match reply
      case Placed(order) => Some(order)
      case ApiError => None
  }
}

=== FILE: wrappers.dfy ===
/** The optional value used wherever the trading bot works with Python's `None`. */
module Wrappers {

  datatype Option<+T> = None | Some(value: T)
}
